=== FILE: README.md ===
# g10k helpers in Dafny

A model of the helper layer of g10k (`helper.go`): the functions the rest of
the program leans on to normalise directory paths, check and prepare cache
directories, report fatal configuration errors (or collect them in validate
mode), run external commands, run the configured post-run command, move
files and look things up in string slices.

The model is pure. The process-wide flags `dryRun` and `validate` are
parameters. The `validationMessages` slice is an explicit accumulator, and
`os.Exit` is a `Halt` outcome that carries the exit code. The file system is
a map from path to node, and what the OS may refuse is an input of the model.
The same holds for running a process, shell-style quote splitting and the
regular expression engine.

Modules:

- `Strings`: Go's `HasPrefix`, `HasSuffix`, `TrimPrefix`, `TrimSuffix`,
  `Join`, `Count(s, sub) > 0` and `Replace(s, old, new, -1)`, plus
  `stringSliceContains`.
- `Paths`: `normalizeDir` with an independent reference definition
  (squash every run of slashes, drop one trailing slash), and
  `stripComponent`.
- `Fatal`: `Fatalf` and `Validatef`.
- `FileSystem`: the abstract file system with `os.MkdirAll`, `os.RemoveAll`
  and `syscall.Unlink`.
- `Directories`: `checkDirAndCreate`, `createOrPurgeDir` and `purgeDir`.
- `Exec`: the command splitting and result classification of
  `executeCommand`.
- `PostRun`: `checkForAndExecutePostrunCommand`.
- `MoveFile`: `moveFile`.

## Model

| member | source | states |
|---|---|---|
| Strings.StringSliceContains | helper.go:285-292 | the scan answers true exactly when the element occurs in the slice |
| Strings.ReplaceAllJoin | helper.go:226-234 | replacing a space-free placeholder in a space-joined list equals replacing in each element, then joining |
| Paths.NormalizeDir | helper.go:106-113 | the result has no "//", no trailing "/", and keeps the non-slash characters of the input in order; the recursion terminates because each pass shortens the path |
| Paths.HalveSlashesFacts | helper.go:108-109 | one `strings.Replace` pass never lengthens the path, strictly shortens it when "//" occurs (the measure of the recursion), and deletes only slashes |
| Paths.NormalizeDirIdempotent | helper.go:106-113 | normalising a normalised path changes nothing |
| Paths.NormalizeDirFixesCanonical | helper.go:106-113 | a path with no "//" and no trailing "/" is returned unchanged |
| Paths.NormalizeDirIsSquashThenTrim | helper.go:106-113 | normalizeDir equals the reference definition: every run of slashes becomes one slash, then one trailing slash is dropped |
| Paths.NormalizeDirDoubledSlash | helper.go:106-113 | doubling a separator anywhere in a path does not change its normal form |
| Paths.NormalizeDirTrailingSlash | helper.go:106-113 | appending a slash to a path does not change its normal form |
| Paths.NormalizeDirRoot | helper.go:106-113 | "/" and "//" both normalise to the empty string |
| Paths.StripComponent | helper.go:328-334 | a `/re/` component deletes the regular expression's matches; any other component is removed once as a prefix, so the component followed by the result is the input, and an input without that prefix is returned unchanged |
| Fatal.Validatef | helper.go:55-66 | the exit status is 0 or 1, and it is 1 exactly when some message was collected |
| Fatal.ValidateModeCollectsAll | helper.go:75-83 | in validate mode a run of fatal errors never halts and appends every message in order |
| Fatal.NormalModeHaltsAtFirst | helper.go:75-83 | outside validate mode the first fatal error halts the run with status 1 and its own message |
| Fatal.ValidationExitStatus | helper.go:55-83 | a validation run collects all raised errors and then exits with 1 exactly when there was at least one |
| Directories.Report | helper.go:75-83 | Fatalf on the run state: validate mode appends exactly this message and leaves the file system alone; otherwise halt with status 1 and this message |
| Directories.CheckDir | helper.go:117-137 | each configuration error raises one Fatalf with its own message (missing setting, not a directory, not writable); an existing usable directory changes nothing; a missing one is created, keeping every entry and adding exactly the directory and its missing ancestors, all as directories, or raises the "failed to create directory" Fatalf; no recorded message means the path is a writable directory |
| Directories.CheckDirAndCreate | helper.go:115-141 | returns normalizeDir(dir) on every path that does not halt; dry-run leaves files and messages unchanged; validate mode never halts; an empty setting, a non-directory or an unwritable directory each raise exactly one Fatalf, with the message naming that case; a missing directory is created, keeping existing entries and adding exactly the directory and its missing ancestors, all as directories, or raises the "failed to create directory" Fatalf when creation fails |
| Directories.CheckDirAndCreateTwice | helper.go:115-141 | a second call on a directory the first call set up changes nothing |
| Directories.CreateOrPurgeDir | helper.go:143-157 | dry-run touches nothing; whatever the OS does, entries outside the directory's subtree are unchanged and the only new ones outside it are its missing ancestors; on a tree-shaped file system, when the OS calls succeed, the directory ends up empty; entries left below an existing directory are ones removal could not delete |
| Directories.CreateOrPurgeDirKeepsTree | helper.go:143-157 | when the OS calls succeed, a tree-shaped file system stays tree-shaped |
| Directories.PurgeDir | helper.go:159-171 | a missing directory is left alone; otherwise entries are only removed, everything outside the subtree stays, every entry RemoveAll cannot delete stays, and nothing else in the subtree does; the directory itself survives exactly when RemoveAll cannot delete it and the Unlink fallback fails too |
| Directories.EmptyPathUntouched | helper.go:143-171 | the empty path never exists, so createOrPurgeDir("") and purgeDir("") leave the file system as it is |
| Exec.SplitFirstSpace | helper.go:175-176 | the program is the text before the first space, and program, space and rest give back the command; with no space the program is the whole command |
| Exec.Classify | helper.go:190-202 | the code is 1 exactly when running reported an error and 0 otherwise; on error the output is the error text, a space and the output |
| Exec.ExitStatusIsDiscarded | helper.go:191-200 | a process that exited with any status, 0 included, is reported with code 1 |
| Exec.ExecuteCommand | helper.go:173-204 | runs the text before the first space with the quote-split rest as arguments, or none when there is no rest or splitting fails; the result classifies that run |
| PostRun.EnvTextIsJoinPlusSpace | helper.go:229-232 | the environment text is the space-joined names plus one trailing space, or empty |
| PostRun.CommandLineWordByWord | helper.go:226-234 | the command line is the space-joined template words, each substituted on its own |
| PostRun.SubstituteWordWithoutDollar | helper.go:227-234 | a template word without '$' comes through the substitutions unchanged |
| PostRun.PlaceholderWords | helper.go:227-234 | a placeholder word becomes the directory text, environment text or branch parameter, when those texts hold no '$' |
| PostRun.NotifyScenario | helper.go:224-236 | a concrete template, two directories, one environment and a branch give the expected line, with two spaces after the environment |
| PostRun.LaterPlaceholderInsideDirectory | helper.go:227-234 | the directory text put in for `$modifieddirs` is itself searched for the later placeholders |
| PostRun.CheckForAndExecutePostrunCommand | helper.go:223-239 | nothing runs exactly when no command is configured; otherwise the substituted line is run once: the program is the text before its first space (the whole line when there is none), the arguments are what the quote splitter makes of the rest (none when it fails), and the result is classified as in executeCommand |
| MoveFile.MoveFileAsWritten | helper.go:258-283 | each failing step reports its own error, and the call succeeds exactly when no step fails; an open failure or a create failure changes nothing; a refused removal keeps the source and leaves the completed copy at the destination; other paths are untouched; on success with distinct paths the destination holds the source's contents and the source is gone exactly when the toggle is set; a kept source keeps its contents when the paths differ; a failed copy leaves a prefix |
| MoveFile.MoveOntoItselfLosesData | helper.go:260-281 | moving a non-empty file onto itself reports success and empties it, or deletes it when the toggle is set |
| MoveFile.MoveFileGuarded | helper.go:258-283 | corrected moveFile: on success the destination holds the source's original contents, and the source is gone exactly when the toggle is set and the paths differ; a source that is still there keeps its original contents, on every outcome |
| MoveFile.GuardedMoveSucceeds | helper.go:258-283 | without OS faults the corrected move of an existing file succeeds and delivers its contents |

Behaviours of helper.go that are easy to misread:

- `executeCommand` reports only 0 or 1. Line 192 reads the exit status, and
  line 200 overwrites it with 1 whenever there is an error.
- The post-run command is run with `allowFail` false (line 236).
- The environment text ends in a space (line 231), so a word that follows
  `$modifiedenvs` in the template ends up two spaces away.
- `purgeDir` does not look at dry-run mode.
- `normalizeDir("/")` is the empty string.

## Left out

- Logging, colour and console output (`Debugf`, `Verbosef`, `Warnf`, `log.Print`, the `Fatalf` and `Validatef` printing) have no effect on the modelled state.
- The `callingFunction` parameter of `createOrPurgeDir` and `purgeDir`, and the log use of `name` in `checkDirAndCreate`, only feed log lines.
- `getSha256sumFile`, `writeStructJSONFile` and `readDeployResultFile` are not modelled: hashing and JSON encoding are library code, and these functions only wrap them.
- `funcName` and `timeTrack` are runtime reflection and wall-clock timing.
- Exec.ExecuteCommand: the process run, the `shellquote.Split` splitter and the clock are inputs. `timeout` is never used by the code, and `allowFail` and `config.UseCacheFallback` only pick the log level.
- Paths.StripComponent: the regular expression engine (`regexp.MustCompile(...).ReplaceAllString(env, "")`) is an input function. A pattern that does not compile, where Go panics, is not modelled.
- FileSystem: a path is identified by its spelling, and `checkDirAndCreate` makes its file-system calls on the raw, unnormalised `dir`. So `checkDirAndCreate("/a/b/")` with `/a/b` an existing writable directory adds a new entry `"/a/b/"` in the model, where Go's Lstat resolves the trailing slash and nothing changes. There are no symbolic links, no `.` or `..`, and no permission bits beyond one writable flag per entry. `fileExists` (Lstat) and `isDir` (Stat) are the same lookup, and the empty path never exists.
- Directories.CheckDirAndCreate: a path below a regular file (`/a/f/x` with `/a/f` a file) does not exist in the model, so it is sent to `os.MkdirAll`, whose failure raises one Fatalf (collected in validate mode). In Go, Lstat fails there with ENOTDIR, which is not "not exist", so `fileExists` (helper.go:88) says true; `isDir` (helper.go:96-100) then calls `Mode()` on the nil FileInfo that `os.Stat` returned and the process panics with status 2, validate mode included. The panic is not modelled.
- Directories.CreateOrPurgeDir, Directories.PurgeDir: the entries `os.RemoveAll` cannot delete are an input set. The model does not require this set to hold the ancestors of a stuck entry, so a failed removal may leave an entry whose parent is gone.
- PostRun.CheckForAndExecutePostrunCommand: `needSyncEnvs` is a Go map whose iteration order is unspecified. The model takes the environment names as a sequence in the order the loop visits them.
- Strings: Go strings are byte strings; here one character stands for one rune, which is the same for the ASCII separators and placeholders involved. `strings.Count(dir, "//") > 0` is modelled as containment of "//".

## Findings

| source | as written | input that shows it | evidently intended | confidence | as-written member | corrected member |
|---|---|---|---|---|---|---|
| helper.go:260-281 | `moveFile` opens the source and then `os.Create`s the destination, which truncates it before `io.Copy` reads the source | `moveFile(p, p, false)` or `moveFile(p, p, true)` with a non-empty file `p` | moving a file onto itself is a successful no-op that keeps its contents | high, not executed | MoveFile.MoveFileAsWritten, MoveFile.MoveOntoItselfLosesData | MoveFile.MoveFileGuarded |

=== FILE: Directories.dfy ===
/**
 The directory lifecycle of helper.go: `checkDirAndCreate`, `createOrPurgeDir`
 and `purgeDir`, as transitions of an abstract file system. The global flags
 `dryRun` and `validate` are passed in as a `Mode`.
 */
module Directories {
  import opened Wrappers
  import opened Paths
  import opened FileSystem
  import opened Fatal

  /** The global flags the helpers read. */
  datatype Mode = Mode(dryRun: bool, validate: bool)

  /** What a run carries from call to call: the file system and the validation messages. */
  datatype RunState = RunState(fs: FS, messages: seq<string>)

  /**
   `r` is what one `Fatalf` makes of `st`: in validate mode the file system is
   untouched and exactly one message is appended; otherwise the run halts with
   exit status 1.
   */
  predicate Raised(validate: bool, st: RunState, r: Step<RunState>) {
    if validate then
      && r.Continue?
      && r.value.fs == st.fs
      && |r.value.messages| == |st.messages| + 1
      && r.value.messages[..|st.messages|] == st.messages
    else r.Halt? && r.code == 1
  }

  /**
   `r` is what `Fatalf(message)` makes of `st`: in validate mode exactly this
   message is appended and nothing else changes; otherwise the run halts with
   exit status 1 and this message.
   */
  predicate Reported(validate: bool, message: string, st: RunState, r: Step<RunState>) {
    if validate then r == Continue(st.(messages := st.messages + [message]))
    else r == Halt(1, message)
  }

  /** `Fatalf` lifted to the run state. */
  function Report(validate: bool, message: string, st: RunState): (r: Step<RunState>)
    ensures validate ==> r == Continue(st.(messages := st.messages + [message]))
    ensures !validate ==> r == Halt(1, message)
    ensures Raised(validate, st, r)
    ensures Reported(validate, message, st, r)
  {
    match Fatalf(validate, message, st.messages)
    case Halt(code, diagnostic) => Halt(code, diagnostic)
    case Continue(messages) => Continue(st.(messages := messages))
  }

  function MissingSettingMessage(name: string): string {
    "checkDirAndCreate(): Error: dir setting '" + name + "' missing! Exiting!"
  }

  function CreateFailedMessage(dir: Path): string {
    "checkDirAndCreate(): Error: failed to create directory: " + dir
  }

  function NotDirectoryMessage(dir: Path): string {
    "checkDirAndCreate(): Error: " + dir + " exists, but is not a directory! Exiting!"
  }

  function NotWritableMessage(dir: Path): string {
    "checkDirAndCreate(): Error: " + dir + " exists, but is not writable! Exiting!"
  }

  /**
   The three configuration errors `checkDirAndCreate` reports whatever the OS
   does: the setting is empty, the path exists but is not a directory, or it
   is a directory the process cannot write to.
   */
  predicate Unusable(fs: FS, dir: Path) {
    || |dir| == 0
    || (Exists(fs, dir) && !IsDir(fs, dir))
    || (IsDir(fs, dir) && !IsWritable(fs, dir))
  }

  /** The creation step of `checkDirAndCreate`: a missing, non-empty `dir` is made with `os.MkdirAll`. */
  function CreateMissing(dir: Path, validate: bool, os: OsFaults, st: RunState): (r: Step<RunState>)
    requires |dir| > 0 && !Exists(st.fs, dir)
    ensures MkdirAll(st.fs, dir, os.mkdirDenied).Some? ==>
              r.Continue? && r.value.messages == st.messages
              && IsDir(r.value.fs, dir) && IsWritable(r.value.fs, dir)
              && r.value.fs.Keys == st.fs.Keys + Ancestors(dir) + {dir}
              && (forall a :: a in Ancestors(dir) ==> IsDir(r.value.fs, a))
              && forall q :: q in st.fs ==> q in r.value.fs && r.value.fs[q] == st.fs[q]
    ensures MkdirAll(st.fs, dir, os.mkdirDenied).None? ==> Raised(validate, st, r)
    ensures MkdirAll(st.fs, dir, os.mkdirDenied).None? ==>
              Reported(validate, CreateFailedMessage(dir), st, r)
  {
    match MkdirAll(st.fs, dir, os.mkdirDenied)
    case Some(fs) => Continue(st.(fs := fs))
    case None => Report(validate, CreateFailedMessage(dir), st)
  }

  /** The checks `checkDirAndCreate` makes on a path that already exists. */
  function CheckExisting(dir: Path, validate: bool, st: RunState): (r: Step<RunState>)
    requires |dir| > 0 && Exists(st.fs, dir)
    ensures Unusable(st.fs, dir) ==> Raised(validate, st, r)
    ensures !IsDir(st.fs, dir) ==> Reported(validate, NotDirectoryMessage(dir), st, r)
    ensures IsDir(st.fs, dir) && !IsWritable(st.fs, dir) ==>
              Reported(validate, NotWritableMessage(dir), st, r)
    ensures !Unusable(st.fs, dir) ==> r == Continue(st) && IsDir(st.fs, dir) && IsWritable(st.fs, dir)
  {
    if !IsDir(st.fs, dir) then Report(validate, NotDirectoryMessage(dir), st)
    else if !IsWritable(st.fs, dir) then Report(validate, NotWritableMessage(dir), st)
    else Continue(st)
  }

  /**
   The checks and the creation `checkDirAndCreate` performs outside dry-run
   mode: each configuration error raises one `Fatalf`, an existing usable
   directory changes nothing, a missing one is created or raises one `Fatalf`.
   */
  function CheckDir(dir: Path, name: string, validate: bool, os: OsFaults, st: RunState)
    : (r: Step<RunState>)
    ensures Unusable(st.fs, dir) ==> Raised(validate, st, r)
    ensures |dir| == 0 ==> Reported(validate, MissingSettingMessage(name), st, r)
    ensures Exists(st.fs, dir) && !IsDir(st.fs, dir) ==>
              Reported(validate, NotDirectoryMessage(dir), st, r)
    ensures IsDir(st.fs, dir) && !IsWritable(st.fs, dir) ==>
              Reported(validate, NotWritableMessage(dir), st, r)
    ensures !Unusable(st.fs, dir) && Exists(st.fs, dir) ==> r == Continue(st)
    ensures !Unusable(st.fs, dir) && !Exists(st.fs, dir) ==>
              if MkdirAll(st.fs, dir, os.mkdirDenied).Some?
              then r.Continue? && r.value.messages == st.messages
                   && r.value.fs.Keys == st.fs.Keys + Ancestors(dir) + {dir}
                   && (forall a :: a in Ancestors(dir) ==> IsDir(r.value.fs, a))
                   && forall q :: q in st.fs ==> q in r.value.fs && r.value.fs[q] == st.fs[q]
              else Raised(validate, st, r) && Reported(validate, CreateFailedMessage(dir), st, r)
    ensures r.Continue? && r.value.messages == st.messages ==>
              IsDir(r.value.fs, dir) && IsWritable(r.value.fs, dir)
  {
    if |dir| == 0 then Report(validate, MissingSettingMessage(name), st)
    else if !Exists(st.fs, dir) then CreateMissing(dir, validate, os, st)
    else CheckExisting(dir, validate, st)
  }

  /** The run-state part of a `checkDirAndCreate` result. */
  function StateOf(r: Step<(Path, RunState)>): Step<RunState> {
    match r
    case Continue(v) => Continue(v.1)
    case Halt(code, diagnostic) => Halt(code, diagnostic)
  }

  /**
   Go's `checkDirAndCreate(dir, name)`. Every path that does not halt returns
   `normalizeDir(dir)`. Dry-run mode touches nothing, and validate mode never
   halts. Each of the three configuration errors raises exactly one `Fatalf`,
   with its own message;
   an existing usable directory changes nothing; a missing one is created,
   keeping every existing entry, or raises one `Fatalf` when `os.MkdirAll`
   fails. A call outside dry-run mode that recorded no message leaves `dir` a
   writable directory.
   */
  function CheckDirAndCreate(dir: Path, name: string, mode: Mode, os: OsFaults, st: RunState)
    : (r: Step<(Path, RunState)>)
    ensures r.Continue? ==> r.value.0 == NormalizeDir(dir)
    ensures mode.dryRun ==> r == Continue((NormalizeDir(dir), st))
    ensures mode.validate ==> r.Continue?
    ensures !mode.dryRun && Unusable(st.fs, dir) ==> Raised(mode.validate, st, StateOf(r))
    ensures !mode.dryRun && |dir| == 0 ==>
              Reported(mode.validate, MissingSettingMessage(name), st, StateOf(r))
    ensures !mode.dryRun && Exists(st.fs, dir) && !IsDir(st.fs, dir) ==>
              Reported(mode.validate, NotDirectoryMessage(dir), st, StateOf(r))
    ensures !mode.dryRun && IsDir(st.fs, dir) && !IsWritable(st.fs, dir) ==>
              Reported(mode.validate, NotWritableMessage(dir), st, StateOf(r))
    ensures !mode.dryRun && !Unusable(st.fs, dir) && Exists(st.fs, dir) ==>
              r == Continue((NormalizeDir(dir), st))
    ensures !mode.dryRun && !Unusable(st.fs, dir) && !Exists(st.fs, dir) ==>
              if MkdirAll(st.fs, dir, os.mkdirDenied).Some?
              then r.Continue? && r.value.1.messages == st.messages
                   && r.value.1.fs.Keys == st.fs.Keys + Ancestors(dir) + {dir}
                   && (forall a :: a in Ancestors(dir) ==> IsDir(r.value.1.fs, a))
                   && forall q :: q in st.fs ==> q in r.value.1.fs && r.value.1.fs[q] == st.fs[q]
              else Raised(mode.validate, st, StateOf(r))
                   && Reported(mode.validate, CreateFailedMessage(dir), st, StateOf(r))
    ensures !mode.dryRun && r.Continue? && r.value.1.messages == st.messages ==>
              IsDir(r.value.1.fs, dir) && IsWritable(r.value.1.fs, dir)
  {
    if mode.dryRun then Continue((NormalizeDir(dir), st))
    else WithPath(NormalizeDir(dir), CheckDir(dir, name, mode.validate, os, st))
  }

  /** Pairs the returned path with the state a step continues with. */
  function WithPath(p: Path, s: Step<RunState>): (r: Step<(Path, RunState)>)
    ensures StateOf(r) == s
    ensures r.Continue? ==> r.value.0 == p
  {
    match s
    case Halt(code, diagnostic) => Halt(code, diagnostic)
    case Continue(next) => Continue((p, next))
  }

  /** A second `checkDirAndCreate` of a directory the first one set up changes nothing. */
  lemma CheckDirAndCreateTwice(dir: Path, name: string, mode: Mode, os: OsFaults, st: RunState)
    requires !mode.dryRun
    requires CheckDirAndCreate(dir, name, mode, os, st).Continue?
    requires CheckDirAndCreate(dir, name, mode, os, st).value.1.messages == st.messages
    ensures var st1 := CheckDirAndCreate(dir, name, mode, os, st).value.1;
            CheckDirAndCreate(dir, name, mode, os, st1) == Continue((NormalizeDir(dir), st1))
  {
  }

  /** The OS calls of `createOrPurgeDir` all succeed. */
  predicate PurgeCallsSucceed(fs: FS, dir: Path, os: OsFaults) {
    && |dir| > 0
    && !os.mkdirDenied
    && (forall q :: q in fs && InSubtree(q, dir) ==> q !in os.stuck)
    && (forall a :: a in Ancestors(dir) && a in fs ==> fs[a].Dir?)
  }

  /** `os.MkdirAll` with its error ignored. */
  function MkdirAllIgnoringError(fs: FS, dir: Path, denied: bool): FS
  {
    MkdirAll(fs, dir, denied).GetOr(fs)
  }

  /**
   Go's `createOrPurgeDir(dir, callingFunction)`. Dry-run mode touches nothing.
   Whatever the OS does, every entry outside the subtree of `dir` is unchanged
   and the only new entries outside it are missing ancestors of `dir`. When the
   OS calls succeed on a tree-shaped file system, `dir` ends up an empty
   directory. Whatever the OS
   does, an existing `dir` afterwards holds only entries removal could not delete.
   */
  function CreateOrPurgeDir(dir: Path, dryRun: bool, os: OsFaults, fs: FS): (r: FS)
    ensures dryRun ==> r == fs
    ensures !dryRun && Tree(fs) && PurgeCallsSucceed(fs, dir, os) ==>
              && IsDir(r, dir)
              && (forall q :: q in r ==> !Below(q, dir))
              && (forall q :: q in fs && !InSubtree(q, dir) ==> q in r && r[q] == fs[q])
              && (forall q :: q in r && !InSubtree(q, dir) ==> q in fs || q in Ancestors(dir))
    ensures !dryRun && Exists(fs, dir) ==> forall q :: q in r && Below(q, dir) ==> q in os.stuck
    ensures forall q :: q in fs && !InSubtree(q, dir) ==> q in r && r[q] == fs[q]
    ensures forall q :: q in r && !InSubtree(q, dir) ==> q in fs || q in Ancestors(dir)
  {
    if dryRun then fs
    else if !Exists(fs, dir) then CreateFresh(dir, os, fs)
    else PurgeAndRecreate(dir, os, fs)
  }

  /** The branch of `createOrPurgeDir` for a `dir` that does not exist yet. */
  function CreateFresh(dir: Path, os: OsFaults, fs: FS): (r: FS)
    requires !Exists(fs, dir)
    ensures Tree(fs) && PurgeCallsSucceed(fs, dir, os) ==>
              && IsDir(r, dir)
              && (forall q :: q in r ==> !Below(q, dir))
              && (forall q :: q in fs ==> q in r && r[q] == fs[q])
              && (forall q :: q in r ==> q in fs || q in Ancestors(dir) || q == dir)
    ensures forall q :: q in fs ==> q in r && r[q] == fs[q]
    ensures forall q :: q in r ==> q in fs || q in Ancestors(dir) || q == dir
  {
    var r := MkdirAllIgnoringError(fs, dir, os.mkdirDenied);
    assert Tree(fs) && |dir| > 0 ==> forall q :: q in r ==> !Below(q, dir) by {
      if Tree(fs) && |dir| > 0 {
        forall q | q in r ensures !Below(q, dir) {
          BelowHasAncestor(q, dir);
          if q in fs {
            assert !IsDir(fs, dir);
            assert dir !in Ancestors(q);
          } else if q != dir {
            assert q in Ancestors(dir);
            var i :| 0 < i < |dir| && dir[i] == '/' && q == dir[..i];
            assert |q| < |dir|;
          }
        }
      }
    }
    r
  }

  /** The branch of `createOrPurgeDir` for an existing `dir`: remove it, then create it again. */
  function PurgeAndRecreate(dir: Path, os: OsFaults, fs: FS): (r: FS)
    requires Exists(fs, dir)
    ensures Tree(fs) && PurgeCallsSucceed(fs, dir, os) ==>
              && IsDir(r, dir)
              && (forall q :: q in r ==> !Below(q, dir))
              && (forall q :: q in fs && !InSubtree(q, dir) ==> q in r && r[q] == fs[q])
              && (forall q :: q in r && !InSubtree(q, dir) ==> q in fs)
    ensures forall q :: q in r && Below(q, dir) ==> q in os.stuck
    ensures forall q :: q in fs && !InSubtree(q, dir) ==> q in r && r[q] == fs[q]
    ensures forall q :: q in r && !InSubtree(q, dir) ==> q in fs || q in Ancestors(dir)
  {
    var removed := RemoveAll(fs, dir, os.stuck).fs;
    var r := MkdirAllIgnoringError(removed, dir, os.mkdirDenied);
    forall a | a in Ancestors(dir) ensures !InSubtree(a, dir) {
      AncestorsOutsideSubtree(dir, a);
    }
    assert r.Keys <= removed.Keys + Ancestors(dir) + {dir};
    assert Tree(fs) && PurgeCallsSucceed(fs, dir, os) ==>
             && MkdirAll(removed, dir, os.mkdirDenied).Some?
             && forall q :: q in r && !InSubtree(q, dir) ==> q in fs by {
      if Tree(fs) && PurgeCallsSucceed(fs, dir, os) {
        forall a | a in Ancestors(dir) ensures a in removed && removed[a].Dir? {
          assert IsDir(fs, a);
          AncestorsOutsideSubtree(dir, a);
        }
        assert dir !in removed;
      }
    }
    r
  }

  /**
   When its OS calls succeed, `createOrPurgeDir` keeps the file system a tree:
   the entries it keeps still have their ancestors, and the ones it adds are
   `dir` and its ancestors, all directories.
   */
  lemma CreateOrPurgeDirKeepsTree(dir: Path, os: OsFaults, fs: FS)
    requires Tree(fs) && PurgeCallsSucceed(fs, dir, os)
    ensures Tree(CreateOrPurgeDir(dir, false, os, fs))
  {
    var r := CreateOrPurgeDir(dir, false, os, fs);
    var base := if Exists(fs, dir) then RemoveAll(fs, dir, os.stuck).fs else fs;
    assert forall a :: a in Ancestors(dir) && a in base ==> base[a].Dir? by {
      forall a | a in Ancestors(dir) && a in base ensures base[a].Dir? {
        AncestorsOutsideSubtree(dir, a);
      }
    }
    assert MkdirAll(base, dir, os.mkdirDenied).Some?;
    assert forall a :: a in Ancestors(dir) ==> IsDir(r, a);
    forall q, a | q in r && a in Ancestors(q) ensures IsDir(r, a) {
      if InSubtree(q, dir) {
        assert q == dir;
      } else if q in fs {
        if InSubtree(a, dir) {
          SubtreeIsDownwardClosed(a, q, dir);
        }
        assert IsDir(fs, a);
      } else {
        assert q in Ancestors(dir);
        AncestorOfAncestor(a, q, dir);
      }
    }
  }

  /**
   The empty path never exists, so `createOrPurgeDir("")` only attempts an
   `os.MkdirAll("")`, which fails, and `purgeDir("")` does nothing: both leave
   the file system as it is, even when the map holds an entry spelled "".
   */
  lemma EmptyPathUntouched(dryRun: bool, os: OsFaults, fs: FS)
    ensures CreateOrPurgeDir("", dryRun, os, fs) == fs
    ensures PurgeDir("", os, fs) == fs
  {
  }

  /**
   Go's `purgeDir(dir, callingFunction)`, which ignores dry-run mode. A missing
   `dir` is left alone. Otherwise entries are only ever removed, everything
   outside `dir`'s subtree stays, and what stays inside it is what neither
   `os.RemoveAll` nor the `syscall.Unlink` fallback could delete.
   */
  function PurgeDir(dir: Path, os: OsFaults, fs: FS): (r: FS)
    ensures !Exists(fs, dir) ==> r == fs
    ensures r.Keys <= fs.Keys
    ensures forall q :: q in r ==> r[q] == fs[q]
    ensures forall q :: q in fs && !InSubtree(q, dir) ==> q in r
    ensures Exists(fs, dir) ==> forall q :: q in r && InSubtree(q, dir) ==> q in os.stuck
    ensures forall q :: q in fs && q in os.stuck && q != dir ==> q in r
    ensures dir in r <==>
              dir in fs && (!Exists(fs, dir) || (dir in os.stuck && (fs[dir].Dir? || os.unlinkDenied)))
  {
    if !Exists(fs, dir) then fs
    else
      var removal := RemoveAll(fs, dir, os.stuck);
      if removal.ok then removal.fs else Unlink(removal.fs, dir, os.unlinkDenied).fs
  }
}

=== FILE: Exec.dfy ===
/**
 The pure part of `executeCommand` in helper.go: how the command line is split
 into program and arguments, and how the process outcome becomes an
 `ExecResult`. Running the process and the shell-style quote splitter are
 inputs of the model.
 */
module Exec {
  import opened Wrappers

  datatype ExecResult = ExecResult(returnCode: int, output: string)

  /**
   The error `CombinedOutput` reports: its text (`fmt.Sprint(err)`) and, when it
   is an `*exec.ExitError`, the exit status of the wait status.
   */
  datatype RunError = RunError(text: string, exitStatus: Option<int>)

  /** What running the process produced: an optional error and the merged output. */
  datatype ProcessOutcome = ProcessOutcome(err: Option<RunError>, output: string)

  /** The program and argument list handed to `exec.Command`. */
  datatype Invocation = Invocation(program: string, args: seq<string>)

  /**
   `strings.SplitN(command, " ", 2)`: the text before the first space and, when
   there is a space, the text after it.
   */
  method SplitFirstSpace(command: string) returns (program: string, rest: Option<string>)
    ensures ' ' !in program
    ensures rest.None? <==> ' ' !in command
    ensures rest.None? ==> program == command
    ensures rest.Some? ==> program + " " + rest.value == command
  {
    var i := 0;
    while i < |command| && command[i] != ' '
      invariant 0 <= i <= |command|
      invariant ' ' !in command[..i]
    {
      i := i + 1;
    }
    if i == |command| {
      assert command[..i] == command;
      return command, None;
    }
    assert command == command[..i] + " " + command[i + 1..];
    return command[..i], Some(command[i + 1..]);
  }

  /**
   How `executeCommand` turns the outcome into an `ExecResult`. The exit status
   of an `*exec.ExitError` is read first and then overwritten by 1 whenever
   there is an error, so the code is 1 exactly when there is an error and 0
   otherwise; on error the output is the error text, a space, and the output.
   */
  function Classify(outcome: ProcessOutcome): (er: ExecResult)
    ensures er.returnCode == 1 <==> outcome.err.Some?
    ensures er.returnCode == 0 <==> outcome.err.None?
    ensures outcome.err.None? ==> er.output == outcome.output
    ensures outcome.err.Some? ==> er.output == outcome.err.value.text + " " + outcome.output
  {
    var status := match outcome.err
      case Some(RunError(_, Some(code))) => code
      case _ => 0;
    var er := ExecResult(status, outcome.output);
    if outcome.err.Some? then
      er.(returnCode := 1, output := outcome.err.value.text + " " + outcome.output)
    else er
  }

  /** A process that exited with any status, 0 included, is reported with code 1. */
  lemma ExitStatusIsDiscarded(text: string, status: int, output: string)
    ensures Classify(ProcessOutcome(Some(RunError(text, Some(status))), output)).returnCode == 1
  {
  }

  /**
   Go's `executeCommand(command, timeout, allowFail)`. The program is the text
   before the first space (the whole command when there is none); the
   arguments are what the quote splitter makes of the rest, and none when there
   is no rest or splitting fails. The result classifies the outcome of running
   exactly that invocation. `timeout` is never used, and `allowFail` only
   chooses the log level of the timing line.
   */
  method ExecuteCommand(command: string, timeout: int, allowFail: bool,
                        quoteSplit: string -> Option<seq<string>>,
                        run: Invocation -> ProcessOutcome)
    returns (invocation: Invocation, er: ExecResult)
    ensures ' ' !in command ==> invocation == Invocation(command, [])
    ensures ' ' in command ==>
              var k := |invocation.program|;
              && k < |command| && command[..k] == invocation.program && command[k] == ' '
              && ' ' !in invocation.program
              && invocation.args == quoteSplit(command[k + 1..]).GetOr([])
    ensures er.returnCode == (if run(invocation).err.Some? then 1 else 0)
    ensures run(invocation).err.None? ==> er.output == run(invocation).output
    ensures run(invocation).err.Some? ==>
              er.output == run(invocation).err.value.text + " " + run(invocation).output
  {
    var program, rest := SplitFirstSpace(command);
    var args: seq<string> := [];
    if rest.Some? {
      match quoteSplit(rest.value)
      case Some(words) => args := words;
      case None =>
    }
    invocation := Invocation(program, args);
    if rest.Some? {
      assert command[..|program|] == program;
      assert command[|program| + 1..] == rest.value;
    }
    er := Classify(run(invocation));
  }
}

=== FILE: Fatal.dfy ===
/**
 Fatal-error reporting of helper.go. The process-wide `validationMessages`
 slice becomes an explicit accumulator, and `os.Exit` becomes a `Halt` outcome
 carrying the exit code.
 */
module Fatal {

  /** What a call leads to: execution goes on with a value, or the process exits. */
  datatype Step<T> = Continue(value: T) | Halt(code: int, diagnostic: string)

  /**
   Go's `Fatalf`: in validate mode the message is appended to the accumulator
   and execution goes on; otherwise the message goes to standard error and the
   process exits with status 1.
   */
  function Fatalf(validate: bool, message: string, messages: seq<string>): Step<seq<string>>
  {
    if validate then Continue(messages + [message]) else Halt(1, message)
  }

  /**
   Go's `Validatef` (without its console output): the exit status is 1 when
   some message was collected and 0 otherwise.
   */
  function Validatef(messages: seq<string>): (code: int)
    ensures code == 0 || code == 1
    ensures code == 1 <==> |messages| > 0
  {
    if |messages| > 0 then 1 else 0
  }

  /** A run of the program raising the fatal errors `errs` one after the other. */
  function RaiseAll(validate: bool, errs: seq<string>, messages: seq<string>): Step<seq<string>>
    decreases |errs|
  {
    if |errs| == 0 then Continue(messages)
    else
      match Fatalf(validate, errs[0], messages)
      case Halt(code, diagnostic) => Halt(code, diagnostic)
      case Continue(next) => RaiseAll(validate, errs[1..], next)
  }

  /** In validate mode no error stops the run, and every message is kept in order. */
  lemma {:induction false} ValidateModeCollectsAll(errs: seq<string>, messages: seq<string>)
    ensures RaiseAll(true, errs, messages) == Continue(messages + errs)
    decreases |errs|
  {
    if |errs| > 0 {
      ValidateModeCollectsAll(errs[1..], messages + [errs[0]]);
      assert messages + [errs[0]] + errs[1..] == messages + errs;
    } else {
      assert messages + errs == messages;
    }
  }

  /** Outside validate mode the first error ends the run with exit status 1. */
  lemma NormalModeHaltsAtFirst(errs: seq<string>, messages: seq<string>)
    requires |errs| > 0
    ensures RaiseAll(false, errs, messages) == Halt(1, errs[0])
  {
  }

  /**
   A validation run that raises `errs` finishes with status 1 exactly when at
   least one error was raised, after collecting all of them.
   */
  lemma ValidationExitStatus(errs: seq<string>)
    ensures RaiseAll(true, errs, []).Continue?
    ensures RaiseAll(true, errs, []).value == errs
    ensures Validatef(RaiseAll(true, errs, []).value) == (if |errs| > 0 then 1 else 0)
  {
    ValidateModeCollectsAll(errs, []);
    assert [] + errs == errs;
  }
}

=== FILE: FileSystem.dfy ===
/**
 An abstract file system for the directory helpers of helper.go: a map from
 path to node. A path is identified by its spelling; symbolic links, permission
 bits and the OS's own path resolution are not modelled. Operations that can
 fail for reasons the map does not record take those reasons as an `OsFaults`
 input.
 */
module FileSystem {
  import opened Strings
  import opened Wrappers

  type Path = string

  datatype Node = Dir(writable: bool) | File(writable: bool)

  type FS = map<Path, Node>

  /** Failures the OS may report, given as inputs of the model. */
  datatype OsFaults = OsFaults(
    mkdirDenied: bool,    // os.MkdirAll is refused (permissions, read-only mount, ...)
    stuck: set<Path>,     // entries os.RemoveAll cannot delete
    unlinkDenied: bool    // syscall.Unlink is refused
  )

  /**
   `fileExists` (an Lstat that does not report "not exist"). The empty path
   never exists: `os.Lstat("")` fails with ENOENT.
   */
  predicate Exists(fs: FS, p: Path) {
    p != "" && p in fs
  }

  /** `isDir`. */
  predicate IsDir(fs: FS, p: Path) {
    Exists(fs, p) && fs[p].Dir?
  }

  /** `unix.Access(p, unix.W_OK) == nil`. */
  predicate IsWritable(fs: FS, p: Path) {
    Exists(fs, p) && fs[p].writable
  }

  /** `p` lies strictly below `root`. */
  predicate Below(p: Path, root: Path) {
    StartsWith(p, root + "/")
  }

  /** `p` is `root` or lies below it. */
  predicate InSubtree(p: Path, root: Path) {
    p == root || Below(p, root)
  }

  /** The proper ancestors of `p` that `os.MkdirAll` may have to create. */
  function Ancestors(p: Path): set<Path>
  {
    set i | 0 < i < |p| && p[i] == '/' :: p[..i]
  }

  /** Every ancestor of an entry is a directory: the map describes a tree. */
  predicate Tree(fs: FS) {
    forall q, a :: q in fs && a in Ancestors(q) ==> IsDir(fs, a)
  }

  /** A non-empty path is an ancestor of every path below it. */
  lemma BelowHasAncestor(q: Path, root: Path)
    requires |root| > 0
    ensures Below(q, root) ==> root in Ancestors(q)
  {
    if Below(q, root) {
      assert q[..|root| + 1] == root + "/";
      assert q[|root|] == '/';
      assert q[..|root|] == root;
    }
  }

  /** An ancestor is shorter than the path, so it never lies in the path's subtree. */
  lemma AncestorsOutsideSubtree(p: Path, a: Path)
    requires a in Ancestors(p)
    ensures !InSubtree(a, p)
  {
  }

  /** An ancestor of an ancestor of `p` is an ancestor of `p`. */
  lemma AncestorOfAncestor(a: Path, b: Path, p: Path)
    requires a in Ancestors(b) && b in Ancestors(p)
    ensures a in Ancestors(p)
  {
    var j :| 0 < j < |p| && p[j] == '/' && b == p[..j];
    var i :| 0 < i < |b| && b[i] == '/' && a == b[..i];
    assert p[i] == '/' && a == p[..i];
  }

  /** Whatever lies below an entry of `root`'s subtree is in that subtree too. */
  lemma SubtreeIsDownwardClosed(a: Path, q: Path, root: Path)
    requires a in Ancestors(q) && InSubtree(a, root)
    ensures InSubtree(q, root)
  {
    var i :| 0 < i < |q| && q[i] == '/' && a == q[..i];
    if a == root {
      assert q[..|root| + 1] == root + "/";
    } else {
      assert q[..|root| + 1] == a[..|root| + 1];
    }
  }

  /**
   `os.MkdirAll(p, 0777)`: fails for the empty path, when refused, or when `p`
   or one of its ancestors exists as a non-directory; otherwise creates `p` and
   every missing ancestor as writable directories and leaves everything else.
   A refusal fails the call even when `p` already is a directory, where Go's
   `MkdirAll` returns nil at once; helper.go either ignores the error or calls
   it only for a missing `p`, so no caller sees the difference.
   */
  function MkdirAll(fs: FS, p: Path, denied: bool): (r: Option<FS>)
    ensures r.Some? && p !in fs ==> IsWritable(r.value, p)
    ensures r.Some? ==> r.value.Keys == fs.Keys + Ancestors(p) + {p}
    ensures r.Some? ==> forall q :: q in fs ==> r.value[q] == fs[q]
    ensures r.Some? ==> IsDir(r.value, p)
    ensures r.Some? ==> forall a :: a in Ancestors(p) ==> IsDir(r.value, a)
    ensures r.None? <==> (p == "" || denied || exists a :: a in Ancestors(p) + {p} && a in fs && !fs[a].Dir?)
  {
    var needed := Ancestors(p) + {p};
    if p == "" || denied || exists a :: a in needed && a in fs && !fs[a].Dir? then None
    else Some(fs + map a | a in needed && a !in fs :: Dir(true))
  }

  /** Result of a removal: the new file system and whether the OS reported success. */
  datatype Removal = Removal(fs: FS, ok: bool)

  /**
   `os.RemoveAll(p)`: deletes `p` and everything below it except the entries
   the OS refuses to delete, and fails when there is such an entry. A missing
   `p` is a success.
   */
  function RemoveAll(fs: FS, p: Path, stuck: set<Path>): (r: Removal)
    ensures r.fs.Keys <= fs.Keys
    ensures forall q :: q in r.fs ==> r.fs[q] == fs[q]
    ensures forall q :: q in fs && !InSubtree(q, p) ==> q in r.fs
    ensures forall q :: q in r.fs && InSubtree(q, p) ==> q in stuck
    ensures forall q :: q in fs && q in stuck ==> q in r.fs
    ensures r.ok <==> forall q :: q in fs && InSubtree(q, p) ==> q !in stuck
  {
    Removal(map q | q in fs && (!InSubtree(q, p) || q in stuck) :: fs[q],
            forall q :: q in fs && InSubtree(q, p) ==> q !in stuck)
  }

  /** `syscall.Unlink(p)`: removes a single non-directory entry. */
  function Unlink(fs: FS, p: Path, denied: bool): (r: Removal)
    ensures r.ok <==> p in fs && fs[p].File? && !denied
    ensures r.ok ==> r.fs == fs - {p}
    ensures !r.ok ==> r.fs == fs
  {
    if p in fs && fs[p].File? && !denied then Removal(fs - {p}, true) else Removal(fs, false)
  }
}

=== FILE: MoveFile.dfy ===
/**
 `moveFile` of helper.go: open the source, create (truncate) the destination,
 copy the bytes, and only then, if asked, remove the source. The files are a
 map from path to contents; failures the map does not determine are inputs.
 */
module MoveFile {
  import opened Wrappers

  type Bytes = seq<bv8>

  type Files = map<string, Bytes>

  /** Failures the OS may report at each step. */
  datatype MoveFaults = MoveFaults(
    openDenied: bool,             // os.Open of the source is refused
    createDenied: bool,           // os.Create of the destination is refused
    copyFailsAfter: Option<nat>,  // io.Copy fails after writing this many bytes
    removeDenied: bool            // os.Remove of the source is refused
  )

  /** The error `moveFile` returns, one per failing step. */
  datatype MoveError = OpenSourceFailed | CreateDestFailed | CopyFailed | RemoveSourceFailed

  datatype Moved = Moved(files: Files, err: Option<MoveError>)

  function Min(a: nat, b: nat): nat {
    if a <= b then a else b
  }

  /**
   Go's `moveFile(sourcePath, destPath, deleteSourceFileToggle)` as written.
   The destination is truncated before the copy reads the source, so the copy
   reads what the source holds after that truncation.
   */
  function MoveFileAsWritten(files: Files, src: string, dst: string, deleteSource: bool,
                             faults: MoveFaults): (m: Moved)
    ensures src !in files || faults.openDenied ==> m == Moved(files, Some(OpenSourceFailed))
    ensures src in files && !faults.openDenied && faults.createDenied ==>
              m == Moved(files, Some(CreateDestFailed))
    ensures src in files && !faults.openDenied && !faults.createDenied ==>
              (m.err == Some(CopyFailed) <==> faults.copyFailsAfter.Some?)
    ensures src in files && !faults.openDenied && !faults.createDenied && faults.copyFailsAfter.None? ==>
              (m.err == Some(RemoveSourceFailed) <==> deleteSource && faults.removeDenied)
    ensures m.err == Some(RemoveSourceFailed) ==> src in m.files
    ensures m.err == Some(RemoveSourceFailed) && src != dst ==>
              dst in m.files && m.files[dst] == files[src]
    ensures src != dst && src in m.files ==> m.files[src] == files[src]
    ensures m.err.None? <==>
              && src in files && !faults.openDenied && !faults.createDenied
              && faults.copyFailsAfter.None? && !(deleteSource && faults.removeDenied)
    ensures forall p :: p != src && p != dst ==>
              (p in m.files <==> p in files) && (p in files ==> m.files[p] == files[p])
    ensures src in files && src !in m.files ==> m.err.None? && deleteSource
    ensures m.err.None? && src != dst ==>
              dst in m.files && m.files[dst] == files[src] && (src in m.files <==> !deleteSource)
    ensures m.err == Some(CopyFailed) && src != dst ==>
              dst in m.files && |m.files[dst]| <= |files[src]|
              && m.files[dst] == files[src][..|m.files[dst]|]
  {
    if src !in files || faults.openDenied then Moved(files, Some(OpenSourceFailed))
    else if faults.createDenied then Moved(files, Some(CreateDestFailed))
    else
      var created := files[dst := []];
      var data := created[src];
      match faults.copyFailsAfter
      case Some(k) => Moved(created[dst := data[..Min(k, |data|)]], Some(CopyFailed))
      case None =>
        var copied := created[dst := data];
        if !deleteSource then Moved(copied, None)
        else if faults.removeDenied then Moved(copied, Some(RemoveSourceFailed))
        else Moved(copied - {src}, None)
  }

  const NoFaults := MoveFaults(false, false, None, false)

  /**
   Moving a file onto itself empties it, and with the delete toggle set it
   removes it: the call reports success either way.
   */
  lemma MoveOntoItselfLosesData(files: Files, p: string)
    requires p in files && |files[p]| > 0
    ensures MoveFileAsWritten(files, p, p, false, NoFaults) == Moved(files[p := []], None)
    ensures MoveFileAsWritten(files, p, p, true, NoFaults) == Moved(files - {p}, None)
  {
    assert files[p := []] - {p} == files - {p};
  }

  /**
   `moveFile` with the evident intent kept for equal paths: moving a file onto
   itself succeeds and leaves it alone. On success the destination holds the
   source's original contents, and the source is gone exactly when the toggle
   is set and the paths differ.
   */
  function MoveFileGuarded(files: Files, src: string, dst: string, deleteSource: bool,
                           faults: MoveFaults): (m: Moved)
    ensures src !in files || faults.openDenied ==> m == Moved(files, Some(OpenSourceFailed))
    ensures m.err.None? ==>
              dst in m.files && m.files[dst] == files[src]
              && (src in m.files <==> !deleteSource || src == dst)
    ensures src in files && src !in m.files ==> m.err.None? && deleteSource
    ensures src in m.files ==> src in files && m.files[src] == files[src]
    ensures forall p :: p != src && p != dst ==>
              (p in m.files <==> p in files) && (p in files ==> m.files[p] == files[p])
  {
    if src == dst && src in files && !faults.openDenied then Moved(files, None)
    else MoveFileAsWritten(files, src, dst, deleteSource, faults)
  }

  /** Without faults the guarded move always succeeds on an existing source. */
  lemma GuardedMoveSucceeds(files: Files, src: string, dst: string, deleteSource: bool)
    requires src in files
    ensures MoveFileGuarded(files, src, dst, deleteSource, NoFaults).err.None?
    ensures MoveFileGuarded(files, src, dst, deleteSource, NoFaults).files[dst] == files[src]
  {
  }
}

=== FILE: Paths.dfy ===
/**
 Path and string helpers of helper.go: `normalizeDir` and `stripComponent`.
 */
module Paths {
  import opened Strings

  /** The characters of `s` other than '/', in order. */
  function NonSlash(s: string): string
  {
    if |s| == 0 then ""
    else (if s[0] == '/' then "" else [s[0]]) + NonSlash(s[1..])
  }

  lemma {:induction false} NonSlashAppend(a: string, b: string)
    ensures NonSlash(a + b) == NonSlash(a) + NonSlash(b)
    decreases |a|
  {
    if |a| > 0 {
      assert (a + b)[1..] == a[1..] + b;
      NonSlashAppend(a[1..], b);
    } else {
      assert a + b == b;
    }
  }

  /** One pass of `strings.Replace(dir, "//", "/", -1)`. */
  function HalveSlashes(s: string): string
  {
    ReplaceAll(s, "//", "/")
  }

  /**
   A pass never lengthens the path, strictly shortens it when "//" occurs, and
   only ever deletes slashes.
   */
  lemma {:induction false} HalveSlashesFacts(s: string)
    ensures |HalveSlashes(s)| <= |s|
    ensures Contains(s, "//") ==> |HalveSlashes(s)| < |s|
    ensures NonSlash(HalveSlashes(s)) == NonSlash(s)
    decreases |s|
  {
    if StartsWith(s, "//") {
      HalveSlashesFacts(s[2..]);
      assert s == "//" + s[2..];
      NonSlashAppend("//", s[2..]);
      NonSlashAppend("/", HalveSlashes(s[2..]));
    } else if |s| > 0 {
      HalveSlashesFacts(s[1..]);
      if Contains(s, "//") {
        var i :| 0 <= i <= |s| - 2 && OccursAt(s, "//", i);
        assert i != 0;
        assert s[1..][i - 1..i + 1] == s[i..i + 2];
        assert OccursAt(s[1..], "//", i - 1);
      }
      assert s == [s[0]] + s[1..];
      NonSlashAppend([s[0]], s[1..]);
      NonSlashAppend([s[0]], HalveSlashes(s[1..]));
    }
  }

  /** Dropping one trailing slash from a path without "//" leaves a canonical path. */
  lemma TrimTrailingSlash(s: string)
    requires !Contains(s, "//")
    ensures !Contains(TrimSuffix(s, "/"), "//")
    ensures !EndsWith(TrimSuffix(s, "/"), "/")
    ensures NonSlash(TrimSuffix(s, "/")) == NonSlash(s)
  {
    if EndsWith(s, "/") {
      var t := s[..|s| - 1];
      assert s == t + "/";
      if Contains(t, "//") {
        var i :| 0 <= i <= |t| - 2 && OccursAt(t, "//", i);
        assert s[i..i + 2] == t[i..i + 2];
        assert OccursAt(s, "//", i);
      }
      if EndsWith(t, "/") {
        assert s[|s| - 2..] == "//";
        assert OccursAt(s, "//", |s| - 2);
      }
      NonSlashAppend(t, "/");
    }
  }

  /**
   Go's `normalizeDir`: while "//" occurs, replace every "//" by "/" and
   normalise again; then drop one trailing "/". The result has no "//", no
   trailing "/", and holds the same non-slash characters in the same order.
   */
  function NormalizeDir(dir: string): (r: string)
    ensures !Contains(r, "//")
    ensures !EndsWith(r, "/")
    ensures NonSlash(r) == NonSlash(dir)
    decreases |dir|
  {
    if Contains(dir, "//") then
      HalveSlashesFacts(dir);
      TrimSuffix(NormalizeDir(HalveSlashes(dir)), "/")
    else
      TrimTrailingSlash(dir);
      TrimSuffix(dir, "/")
  }

  /** A path that is already canonical is its own normal form. */
  lemma NormalizeDirFixesCanonical(s: string)
    requires !Contains(s, "//") && !EndsWith(s, "/")
    ensures NormalizeDir(s) == s
  {
  }

  /** `normalizeDir` is idempotent. */
  lemma NormalizeDirIdempotent(s: string)
    ensures NormalizeDir(NormalizeDir(s)) == NormalizeDir(s)
  {
    NormalizeDirFixesCanonical(NormalizeDir(s));
  }

  /**
   Reference reading of the normalisation, independent of `strings.Replace`:
   every run of slashes becomes a single slash.
   */
  function SquashRuns(s: string): string
  {
    if |s| == 0 then ""
    else if |s| >= 2 && s[0] == '/' && s[1] == '/' then SquashRuns(s[1..])
    else [s[0]] + SquashRuns(s[1..])
  }

  lemma {:induction false} SquashRunsWithoutDouble(s: string)
    requires !Contains(s, "//")
    ensures SquashRuns(s) == s
    decreases |s|
  {
    if |s| > 0 {
      assert !OccursAt(s, "//", 0);
      assert |s| >= 2 ==> s[0..2] == [s[0], s[1]];
      if Contains(s[1..], "//") {
        var i :| 0 <= i <= |s[1..]| - 2 && OccursAt(s[1..], "//", i);
        assert s[1..][i..i + 2] == s[i + 1..i + 3];
        assert OccursAt(s, "//", i + 1);
      }
      SquashRunsWithoutDouble(s[1..]);
    }
  }

  lemma SquashRunsAfterSlash(x: string)
    ensures SquashRuns("/" + x)
            == if StartsWith(x, "/") then SquashRuns(x) else "/" + SquashRuns(x)
  {
    assert ("/" + x)[1..] == x;
  }

  lemma HalveSlashesHead(s: string)
    ensures StartsWith(HalveSlashes(s), "/") <==> StartsWith(s, "/")
  {
  }

  /** One `strings.Replace` pass does not change the squashed form. */
  lemma {:induction false} SquashRunsHalve(s: string)
    ensures SquashRuns(HalveSlashes(s)) == SquashRuns(s)
    decreases |s|
  {
    if StartsWith(s, "//") {
      var t := s[2..];
      assert HalveSlashes(s) == "/" + HalveSlashes(t);
      assert s[1..] == "/" + t;
      SquashRunsHalve(t);
      HalveSlashesHead(t);
      SquashRunsAfterSlash(HalveSlashes(t));
      SquashRunsAfterSlash(t);
    } else if |s| > 0 {
      var t := s[1..];
      assert HalveSlashes(s) == [s[0]] + HalveSlashes(t);
      SquashRunsHalve(t);
      if s[0] == '/' {
        assert !StartsWith(t, "/");
        HalveSlashesHead(t);
        assert [s[0]] + HalveSlashes(t) == "/" + HalveSlashes(t);
        SquashRunsAfterSlash(HalveSlashes(t));
      } else {
        assert ([s[0]] + HalveSlashes(t))[1..] == HalveSlashes(t);
      }
    }
  }

  /**
   `normalizeDir` agrees with the reference reading: squash every run of
   slashes, then drop one trailing slash.
   */
  lemma {:induction false} NormalizeDirIsSquashThenTrim(s: string)
    ensures NormalizeDir(s) == TrimSuffix(SquashRuns(s), "/")
    decreases |s|
  {
    if Contains(s, "//") {
      HalveSlashesFacts(s);
      NormalizeDirIsSquashThenTrim(HalveSlashes(s));
      SquashRunsHalve(s);
    } else {
      SquashRunsWithoutDouble(s);
    }
  }

  lemma {:induction false} SquashRunsDoubled(a: string, b: string)
    ensures SquashRuns(a + "//" + b) == SquashRuns(a + "/" + b)
    decreases |a|
  {
    var s1 := a + "//" + b;
    var s2 := a + "/" + b;
    if |a| == 0 {
      assert s1[1..] == s2;
    } else {
      assert s1[1..] == a[1..] + "//" + b;
      assert s2[1..] == a[1..] + "/" + b;
      assert s1[1] == s2[1];
      SquashRunsDoubled(a[1..], b);
    }
  }

  /** Doubling a separator anywhere in a path does not change its normal form. */
  lemma NormalizeDirDoubledSlash(a: string, b: string)
    ensures NormalizeDir(a + "//" + b) == NormalizeDir(a + "/" + b)
  {
    NormalizeDirIsSquashThenTrim(a + "//" + b);
    NormalizeDirIsSquashThenTrim(a + "/" + b);
    SquashRunsDoubled(a, b);
  }

  lemma {:induction false} SquashRunsLast(s: string)
    requires |s| > 0
    ensures |SquashRuns(s)| > 0 && SquashRuns(s)[|SquashRuns(s)| - 1] == s[|s| - 1]
    decreases |s|
  {
    if |s| >= 2 {
      SquashRunsLast(s[1..]);
    }
  }

  lemma {:induction false} SquashRunsAppendSlash(s: string)
    requires !EndsWith(s, "/")
    ensures SquashRuns(s + "/") == SquashRuns(s) + "/"
    decreases |s|
  {
    var t := s + "/";
    if |s| > 0 {
      assert t[1..] == s[1..] + "/";
      if |s| == 1 {
        assert t == [s[0], '/'];
        assert s[0] != '/';
      } else {
        assert t[1] == s[1];
        assert s[1..][|s[1..]| - 1] == s[|s| - 1];
        SquashRunsAppendSlash(s[1..]);
      }
    }
  }

  /** A trailing separator does not change the normal form of a path. */
  lemma NormalizeDirTrailingSlash(s: string)
    ensures NormalizeDir(s + "/") == NormalizeDir(s)
  {
    if EndsWith(s, "/") {
      var a := s[..|s| - 1];
      assert s + "/" == a + "//" + "";
      assert s == a + "/" + "";
      NormalizeDirDoubledSlash(a, "");
    } else {
      TrailingSlashAfterOther(s);
    }
  }

  lemma TrailingSlashAfterOther(s: string)
    requires !EndsWith(s, "/")
    ensures NormalizeDir(s + "/") == NormalizeDir(s)
  {
    var q := SquashRuns(s);
    NormalizeDirIsSquashThenTrim(s + "/");
    NormalizeDirIsSquashThenTrim(s);
    SquashRunsAppendSlash(s);
    assert EndsWith(q + "/", "/");
    assert TrimSuffix(q + "/", "/") == q;
    if |s| > 0 {
      SquashRunsLast(s);
      assert q[|q| - 1] != '/';
    }
    assert !EndsWith(q, "/");
  }

  /** The root path "/" normalises to the empty string. */
  lemma NormalizeDirRoot()
    ensures NormalizeDir("/") == ""
    ensures NormalizeDir("//") == ""
  {
    assert !Contains("/", "//");
    assert Contains("//", "//") by { assert OccursAt("//", "//", 0); }
    assert HalveSlashes("//") == "/";
  }

  /**
   The regular expression test of `stripComponent` on `component` (starts with a
   slash, any characters, ends with a slash): at least two characters, first and last '/',
   and no newline in between (RE2's `.` does not match a newline).
   */
  predicate IsRegexComponent(component: string) {
    |component| >= 2 && component[0] == '/' && component[|component| - 1] == '/'
    && '\n' !in component[1..|component| - 1]
  }

  /**
   Go's `stripComponent(component, env)`. A component written `/re/` is a
   regular expression whose matches are deleted from `env`; the regular
   expression engine is the input `regexDelete`, given the text between the
   slashes. Any other component is a literal prefix, removed once when `env`
   starts with it, so the result is then always a suffix of `env`.
   */
  function StripComponent(component: string, env: string,
                          regexDelete: (string, string) -> string): (r: string)
    ensures IsRegexComponent(component) ==>
              r == regexDelete(component[1..|component| - 1], env)
    ensures !IsRegexComponent(component) && StartsWith(env, component) ==> component + r == env
    ensures !IsRegexComponent(component) && !StartsWith(env, component) ==> r == env
    ensures !IsRegexComponent(component) ==> EndsWith(env, r)
  {
    if IsRegexComponent(component) then regexDelete(component[1..|component| - 1], env)
    else TrimPrefix(env, component)
  }
}

=== FILE: PostRun.dfy ===
/**
 `checkForAndExecutePostrunCommand` of helper.go: the configured post-run
 command, with the modified directories, the modified environments and the
 branch parameter substituted, is run once at the end of a run.
 */
module PostRun {
  import opened Strings
  import opened Wrappers
  import opened Exec

  /** The environment text: every name followed by one space. */
  function EnvText(envs: seq<string>): string
  {
    if |envs| == 0 then "" else envs[0] + " " + EnvText(envs[1..])
  }

  /** The environment text is the space-joined names plus one trailing space, or empty. */
  lemma {:induction false} EnvTextIsJoinPlusSpace(envs: seq<string>)
    ensures EnvText(envs) == if |envs| == 0 then "" else Join(envs, " ") + " "
    decreases |envs|
  {
    if |envs| > 1 {
      EnvTextIsJoinPlusSpace(envs[1..]);
    }
  }

  /**
   The command line: the template words joined with spaces, then
   `$modifieddirs`, then `$modifiedenvs`, then `$branchparam` replaced
   everywhere, in that order.
   */
  function CommandLine(template: seq<string>, dirs: seq<string>, envs: seq<string>,
                       branchParam: string): string
  {
    var joined := Join(template, " ");
    var withDirs := ReplaceAll(joined, "$modifieddirs", Join(dirs, " "));
    var withEnvs := ReplaceAll(withDirs, "$modifiedenvs", EnvText(envs));
    ReplaceAll(withEnvs, "$branchparam", branchParam)
  }

  /** The three substitutions applied, in order, to one template word. */
  function SubstituteWord(word: string, dirsText: string, envText: string, branchParam: string): string
  {
    ReplaceAll(ReplaceAll(ReplaceAll(word, "$modifieddirs", dirsText), "$modifiedenvs", envText),
               "$branchparam", branchParam)
  }

  function SubstituteEach(template: seq<string>, dirsText: string, envText: string,
                          branchParam: string): (r: seq<string>)
    ensures |r| == |template|
  {
    seq(|template|, i requires 0 <= i < |template| =>
      SubstituteWord(template[i], dirsText, envText, branchParam))
  }

  /**
   No placeholder contains a space, so the command line is the space-joined
   list of the template words, each substituted on its own.
   */
  lemma CommandLineWordByWord(template: seq<string>, dirs: seq<string>, envs: seq<string>,
                              branchParam: string)
    ensures CommandLine(template, dirs, envs, branchParam)
            == Join(SubstituteEach(template, Join(dirs, " "), EnvText(envs), branchParam), " ")
  {
    var d := Join(dirs, " ");
    var e := EnvText(envs);
    var w1 := ReplaceEach(template, "$modifieddirs", d);
    var w2 := ReplaceEach(w1, "$modifiedenvs", e);
    var w3 := ReplaceEach(w2, "$branchparam", branchParam);
    ReplaceAllJoin(template, "$modifieddirs", d);
    ReplaceAllJoin(w1, "$modifiedenvs", e);
    ReplaceAllJoin(w2, "$branchparam", branchParam);
    assert w3 == SubstituteEach(template, d, e, branchParam);
  }

  /** A word in which no placeholder starts is left alone by the substitutions. */
  lemma SubstituteWordWithoutDollar(word: string, dirsText: string, envText: string,
                                    branchParam: string)
    requires '$' !in word
    ensures SubstituteWord(word, dirsText, envText, branchParam) == word
  {
    NoDollarNoPlaceholder(word, "$modifieddirs");
    ReplaceAllAbsent(word, "$modifieddirs", dirsText);
    NoDollarNoPlaceholder(word, "$modifiedenvs");
    ReplaceAllAbsent(word, "$modifiedenvs", envText);
    NoDollarNoPlaceholder(word, "$branchparam");
    ReplaceAllAbsent(word, "$branchparam", branchParam);
  }

  lemma NoDollarNoPlaceholder(word: string, placeholder: string)
    requires |placeholder| > 0 && placeholder[0] == '$' && '$' !in word
    ensures !Contains(word, placeholder)
  {
    forall i | 0 <= i <= |word| - |placeholder|
      ensures !OccursAt(word, placeholder, i)
    {
      assert word[i..i + |placeholder|][0] == word[i];
    }
  }

  /** A template word without '$' comes through the substitutions unchanged. */
  lemma PlainWord(template: seq<string>, i: nat, d: string, e: string, b: string)
    requires i < |template| && '$' !in template[i]
    ensures SubstituteEach(template, d, e, b)[i] == template[i]
  {
    SubstituteWordWithoutDollar(template[i], d, e, b);
  }

  lemma JoinStep(words: seq<string>, i: nat)
    requires i + 1 < |words|
    ensures Join(words[i..], " ") == words[i] + " " + Join(words[i + 1..], " ")
  {
    assert words[i..][1..] == words[i + 1..];
  }

  lemma JoinSeven(w: seq<string>)
    requires |w| == 7
    ensures Join(w, " ")
            == w[0] + " " + (w[1] + " " + (w[2] + " " + (w[3] + " " + (w[4] + " " + (w[5] + " " + w[6])))))
  {
    assert w[6..] == [w[6]];
    JoinStep(w, 5);
    JoinStep(w, 4);
    JoinStep(w, 3);
    JoinStep(w, 2);
    JoinStep(w, 1);
    JoinStep(w, 0);
    assert w[0..] == w;
  }

  /**
   With the template `notify --dirs $modifieddirs --envs $modifiedenvs
   --branch $branchparam`, directories `/a` and `/b`, environment `prod` and
   branch parameter `v3`, the command line is
   `notify --dirs /a /b --envs prod  --branch v3`, with two spaces after
   `prod`: the environment text ends in a space and the join adds another.
   */
  lemma NotifyScenario(template: seq<string>, dirs: seq<string>, envs: seq<string>,
                        branchParam: string)
    requires |template| == 7
    requires template[0] == "notify" && template[1] == "--dirs" && template[2] == "$modifieddirs"
    requires template[3] == "--envs" && template[4] == "$modifiedenvs"
    requires template[5] == "--branch" && template[6] == "$branchparam"
    requires dirs == ["/a", "/b"] && envs == ["prod"] && branchParam == "v3"
    // that is, "notify --dirs /a /b --envs prod  --branch v3"
    ensures CommandLine(template, dirs, envs, branchParam)
            == "notify" + " " + ("--dirs" + " " + ("/a /b" + " " + ("--envs" + " "
               + ("prod " + " " + ("--branch" + " " + "v3")))))
  {
    ScenarioTexts(dirs, envs);
    var d, e := Join(dirs, " "), EnvText(envs);
    CommandLineWordByWord(template, dirs, envs, branchParam);
    var words := SubstituteEach(template, d, e, branchParam);
    PlainWord(template, 0, d, e, branchParam);
    PlainWord(template, 1, d, e, branchParam);
    PlainWord(template, 3, d, e, branchParam);
    PlainWord(template, 5, d, e, branchParam);
    PlaceholderWords(d, e, branchParam);
    JoinSeven(words);
  }

  lemma ScenarioTexts(dirs: seq<string>, envs: seq<string>)
    requires dirs == ["/a", "/b"] && envs == ["prod"]
    ensures Join(dirs, " ") == "/a /b"
    ensures EnvText(envs) == "prod "
  {
    assert dirs[1..] == ["/b"];
    assert Join(dirs[1..], " ") == "/b";
    assert envs[1..] == [];
    assert EnvText(envs[1..]) == "";
  }

  /** How each placeholder word is substituted when no substituted text holds a '$'. */
  lemma PlaceholderWords(d: string, e: string, b: string)
    requires '$' !in d && '$' !in e
    ensures SubstituteWord("$modifieddirs", d, e, b) == d
    ensures SubstituteWord("$modifiedenvs", d, e, b) == e
    ensures SubstituteWord("$branchparam", d, e, b) == b
  {
    DirsWord(d, e, b);
    EnvsWord(d, e, b);
    BranchWord(d, e, b);
  }

  lemma DirsWord(d: string, e: string, b: string)
    requires '$' !in d
    ensures SubstituteWord("$modifieddirs", d, e, b) == d
  {
    ReplaceAllWhole("$modifieddirs", d);
    NoDollarNoPlaceholder(d, "$modifiedenvs");
    ReplaceAllAbsent(d, "$modifiedenvs", e);
    NoDollarNoPlaceholder(d, "$branchparam");
    ReplaceAllAbsent(d, "$branchparam", b);
  }

  lemma EnvsWord(d: string, e: string, b: string)
    requires '$' !in e
    ensures SubstituteWord("$modifiedenvs", d, e, b) == e
  {
    OtherPlaceholder("$modifiedenvs", "$modifieddirs", d, 9);
    ReplaceAllWhole("$modifiedenvs", e);
    NoDollarNoPlaceholder(e, "$branchparam");
    ReplaceAllAbsent(e, "$branchparam", b);
  }

  lemma BranchWord(d: string, e: string, b: string)
    ensures SubstituteWord("$branchparam", d, e, b) == b
  {
    OtherPlaceholder("$branchparam", "$modifieddirs", d, 1);
    OtherPlaceholder("$branchparam", "$modifiedenvs", e, 1);
    ReplaceAllWhole("$branchparam", b);
  }

  /** A word no longer than `placeholder` that differs from it at index `k` is left alone. */
  lemma OtherPlaceholder(word: string, placeholder: string, rep: string, k: nat)
    requires |word| <= |placeholder| && |placeholder| > 0
    requires k < |word| && word[k] != placeholder[k]
    ensures ReplaceAll(word, placeholder, rep) == word
  {
    assert !Contains(word, placeholder) by {
      forall i | 0 <= i <= |word| - |placeholder|
        ensures !OccursAt(word, placeholder, i)
      {
        assert word[i..i + |placeholder|][k] == word[k];
      }
    }
    ReplaceAllAbsent(word, placeholder, rep);
  }

  /**
   The substitutions run in a fixed order over the whole line, so the
   directory text put in for `$modifieddirs` is itself searched for
   `$modifiedenvs` and `$branchparam` by the later steps.
   */
  lemma LaterPlaceholderInsideDirectory(template: seq<string>, dirs: seq<string>, envs: seq<string>,
                                        branchParam: string)
    requires |template| == 1 && template[0] == "$modifieddirs"
    ensures CommandLine(template, dirs, envs, branchParam)
            == ReplaceAll(ReplaceAll(Join(dirs, " "), "$modifiedenvs", EnvText(envs)),
                          "$branchparam", branchParam)
  {
    var d := Join(dirs, " ");
    CommandLineWordByWord(template, dirs, envs, branchParam);
    var words := SubstituteEach(template, d, EnvText(envs), branchParam);
    ReplaceAllWhole("$modifieddirs", d);
    assert words[0] == SubstituteWord(template[0], d, EnvText(envs), branchParam);
  }

  /** What the post-run hook did: the command line and the call it led to. */
  datatype PostRunCall = PostRunCall(commandLine: string, invocation: Invocation, result: ExecResult)

  /**
   Go's `checkForAndExecutePostrunCommand`. Nothing runs when no post-run
   command is configured; otherwise the substituted command line is run once
   through `executeCommand`, with `allowFail` false.
   */
  method CheckForAndExecutePostrunCommand(postRunCommand: seq<string>, timeout: int,
                                          dirs: seq<string>, envs: seq<string>, branchParam: string,
                                          quoteSplit: string -> Option<seq<string>>,
                                          run: Invocation -> ProcessOutcome)
    returns (call: Option<PostRunCall>)
    ensures call.None? <==> |postRunCommand| == 0
    ensures call.Some? ==> call.value.commandLine == CommandLine(postRunCommand, dirs, envs, branchParam)
    ensures call.Some? && ' ' !in call.value.commandLine ==>
              call.value.invocation == Invocation(call.value.commandLine, [])
    ensures call.Some? && ' ' in call.value.commandLine ==>
              var line, program := call.value.commandLine, call.value.invocation.program;
              var k := |program|;
              && k < |line| && line[..k] == program && line[k] == ' ' && ' ' !in program
              && call.value.invocation.args == quoteSplit(line[k + 1..]).GetOr([])
    ensures call.Some? ==>
              call.value.result.returnCode == (if run(call.value.invocation).err.Some? then 1 else 0)
    ensures call.Some? && run(call.value.invocation).err.None? ==>
              call.value.result.output == run(call.value.invocation).output
    ensures call.Some? && run(call.value.invocation).err.Some? ==>
              call.value.result.output
              == run(call.value.invocation).err.value.text + " " + run(call.value.invocation).output
  {
    if |postRunCommand| == 0 {
      return None;
    }
    var commandLine := CommandLine(postRunCommand, dirs, envs, branchParam);
    var invocation, er := ExecuteCommand(commandLine, timeout, false, quoteSplit, run);
    return Some(PostRunCall(commandLine, invocation, er));
  }
}

=== FILE: Strings.dfy ===
/**
 Models of the few functions of Go's `strings` package that helper.go relies on:
 HasPrefix/HasSuffix, TrimPrefix/TrimSuffix, Contains (`Count(s, sub) > 0`),
 Join and Replace with n = -1. Go strings are byte strings; here a string is a
 sequence of characters, and one character stands for one rune.
 */
module Strings {

  predicate StartsWith(s: string, prefix: string) {
    |prefix| <= |s| && s[..|prefix|] == prefix
  }

  predicate EndsWith(s: string, suffix: string) {
    |suffix| <= |s| && s[|s| - |suffix|..] == suffix
  }

  /** `sub` occurs in `s` starting at index `i`. */
  predicate OccursAt(s: string, sub: string, i: int) {
    0 <= i && i + |sub| <= |s| && s[i..i + |sub|] == sub
  }

  /** Go's `strings.Count(s, sub) > 0`: `sub` occurs somewhere in `s`. */
  predicate Contains(s: string, sub: string) {
    exists i :: 0 <= i <= |s| - |sub| && OccursAt(s, sub, i)
  }

  /** Go's `strings.TrimPrefix`: drops `prefix` once, if `s` starts with it. */
  function TrimPrefix(s: string, prefix: string): (r: string)
    ensures StartsWith(s, prefix) ==> prefix + r == s
    ensures !StartsWith(s, prefix) ==> r == s
  {
    if StartsWith(s, prefix) then s[|prefix|..] else s
  }

  /** Go's `strings.TrimSuffix`: drops `suffix` once, if `s` ends with it. */
  function TrimSuffix(s: string, suffix: string): (r: string)
    ensures EndsWith(s, suffix) ==> r + suffix == s
    ensures !EndsWith(s, suffix) ==> r == s
  {
    if EndsWith(s, suffix) then s[..|s| - |suffix|] else s
  }

  /** Go's `strings.Join`. */
  function Join(parts: seq<string>, sep: string): string
  {
    if |parts| == 0 then ""
    else if |parts| == 1 then parts[0]
    else parts[0] + sep + Join(parts[1..], sep)
  }

  /** Go's rule for an empty pattern: the replacement goes before every rune and at the end. */
  function InsertAround(s: string, rep: string): string
  {
    if |s| == 0 then rep else rep + [s[0]] + InsertAround(s[1..], rep)
  }

  /**
   Go's `strings.Replace(s, pat, rep, -1)`: scanning left to right, every
   occurrence of `pat` that does not overlap an earlier replaced one becomes `rep`.
   */
  function ReplaceAll(s: string, pat: string, rep: string): string
    decreases |s|
  {
    if |pat| == 0 then InsertAround(s, rep)
    else if StartsWith(s, pat) then rep + ReplaceAll(s[|pat|..], pat, rep)
    else if |s| == 0 then ""
    else [s[0]] + ReplaceAll(s[1..], pat, rep)
  }

  /** Applies the same replacement to every element of `words`. */
  function ReplaceEach(words: seq<string>, pat: string, rep: string): (r: seq<string>)
    ensures |r| == |words|
    ensures forall i :: 0 <= i < |words| ==> r[i] == ReplaceAll(words[i], pat, rep)
  {
    seq(|words|, i requires 0 <= i < |words| => ReplaceAll(words[i], pat, rep))
  }

  /** A string in which `pat` does not occur is left as it is. */
  lemma {:induction false} ReplaceAllAbsent(s: string, pat: string, rep: string)
    requires |pat| > 0 && !Contains(s, pat)
    ensures ReplaceAll(s, pat, rep) == s
    decreases |s|
  {
    if StartsWith(s, pat) {
      assert OccursAt(s, pat, 0);
    } else if |s| > 0 {
      if Contains(s[1..], pat) {
        var i :| 0 <= i <= |s[1..]| - |pat| && OccursAt(s[1..], pat, i);
        assert s[1..][i..i + |pat|] == s[i + 1..i + 1 + |pat|];
        assert OccursAt(s, pat, i + 1);
      }
      ReplaceAllAbsent(s[1..], pat, rep);
    }
  }

  /** Replacing the whole of `pat` yields `rep`. */
  lemma ReplaceAllWhole(pat: string, rep: string)
    requires |pat| > 0
    ensures ReplaceAll(pat, pat, rep) == rep
  {
    assert pat[|pat|..] == "";
  }

  /** An occurrence of a space-free `pat` at the start of `a + " " + b` lies within `a`. */
  lemma PrefixBeforeSpace(a: string, b: string, pat: string)
    requires ' ' !in pat && StartsWith(a + " " + b, pat)
    ensures StartsWith(a, pat)
  {
    var s := a + " " + b;
    assert s[|a|] == ' ';
    assert forall i :: 0 <= i < |pat| ==> pat[i] == s[i];
    assert |pat| <= |a|;
    assert a[..|pat|] == s[..|pat|];
  }

  /** One step of `ReplaceAll` at an occurrence of `pat`. */
  lemma ReplaceAllMatch(s: string, pat: string, rep: string)
    requires |pat| > 0 && StartsWith(s, pat)
    ensures ReplaceAll(s, pat, rep) == rep + ReplaceAll(s[|pat|..], pat, rep)
  {
  }

  /** One step of `ReplaceAll` past a character that does not start `pat`. */
  lemma ReplaceAllSkip(s: string, pat: string, rep: string)
    requires |pat| > 0 && |s| > 0 && !StartsWith(s, pat)
    ensures ReplaceAll(s, pat, rep) == [s[0]] + ReplaceAll(s[1..], pat, rep)
  {
  }

  /** Re-brackets a concatenation around a space, for `ReplaceAllAtSpace`. */
  lemma Regroup(x: string, y: string, z: string)
    ensures x + (y + " " + z) == x + y + " " + z
  {
  }

  /** A prefix of `a` is a prefix of any extension of `a`. */
  lemma PrefixExtends(a: string, x: string, pat: string)
    ensures StartsWith(a, pat) ==> StartsWith(a + x, pat)
  {
    if |pat| <= |a| {
      assert (a + x)[..|pat|] == a[..|pat|];
    }
  }

  /**
   When `pat` contains no space, no occurrence of it straddles a space, so the
   replacement acts on the two sides of a space independently.
   */
  lemma {:induction false} ReplaceAllAtSpace(a: string, b: string, pat: string, rep: string)
    requires |pat| > 0 && ' ' !in pat
    ensures ReplaceAll(a + " " + b, pat, rep)
            == ReplaceAll(a, pat, rep) + " " + ReplaceAll(b, pat, rep)
    decreases |a|
  {
    var s := a + " " + b;
    if StartsWith(s, pat) {
      PrefixBeforeSpace(a, b, pat);
      var rest := a[|pat|..];
      assert s[|pat|..] == rest + " " + b;
      ReplaceAllAtSpace(rest, b, pat, rep);
      ReplaceAllMatch(s, pat, rep);
      ReplaceAllMatch(a, pat, rep);
      Regroup(rep, ReplaceAll(rest, pat, rep), ReplaceAll(b, pat, rep));
    } else if |a| == 0 {
      assert s == " " + b;
      assert s[1..] == b;
      ReplaceAllSkip(s, pat, rep);
    } else {
      PrefixExtends(a, " " + b, pat);
      assert s[1..] == a[1..] + " " + b;
      ReplaceAllAtSpace(a[1..], b, pat, rep);
      ReplaceAllSkip(s, pat, rep);
      ReplaceAllSkip(a, pat, rep);
      assert s[0] == a[0];
      Regroup([a[0]], ReplaceAll(a[1..], pat, rep), ReplaceAll(b, pat, rep));
    }
  }

  /**
   With a placeholder that contains no space, replacing in a space-joined list
   is the same as replacing in each element and then joining.
   */
  lemma {:induction false} ReplaceAllJoin(words: seq<string>, pat: string, rep: string)
    requires |pat| > 0 && ' ' !in pat
    ensures ReplaceAll(Join(words, " "), pat, rep) == Join(ReplaceEach(words, pat, rep), " ")
    decreases |words|
  {
    if |words| == 0 {
    } else if |words| == 1 {
    } else {
      var rest := ReplaceEach(words[1..], pat, rep);
      assert ReplaceEach(words, pat, rep)[1..] == rest;
      ReplaceAllAtSpace(words[0], Join(words[1..], " "), pat, rep);
      ReplaceAllJoin(words[1..], pat, rep);
    }
  }

  /** Go's `stringSliceContains`: a linear scan for `element` in `slice`. */
  method StringSliceContains(slice: seq<string>, element: string) returns (found: bool)
    ensures found <==> element in slice
  {
    var i := 0;
    while i < |slice|
      invariant 0 <= i <= |slice|
      invariant element !in slice[..i]
    {
      if slice[i] == element {
        return true;
      }
      i := i + 1;
    }
    assert slice[..i] == slice;
    return false;
  }
}

=== FILE: Wrappers.dfy ===
/** Optional values, used for the Go code's `(value, err)` pairs and nil-able results. */
module Wrappers {

  datatype Option<+T> = None | Some(value: T) {

    /** The wrapped value, or `default` when there is none. */
    function GetOr(default: T): T {
      match this
      case Some(v) => v
      case None => default
    }
  }
}
